=== FILE: README.md ===
# newm panel supervision, modelled in Dafny

This project models the panel launcher of the newm Wayland compositor
(`newm/panel_launcher.py`). The launcher keeps one auxiliary "panel"
process per role: the lock screen, the launcher, and the top, bottom and
plain bars. Each `PanelLauncher` holds an optional handle on its process.
`_start` re-reads the role's command and working directory from the
configuration. It spawns the command split on single spaces, unless the
command is `None`. `check` restarts a process that is missing, has exited,
or whose poll raised. `stop` kills the process and clears the handle.
`PanelsLauncher` owns one panel per role in a fixed order. Its loop sweeps
`check` over all panels on every 50th tick. It answers which role a pid
belongs to, and `stop` shuts every panel down.

Layout:

- `config.dfy` (module `Config`): the roles, their fixed order, the
  configuration keys and defaults, and the lookup that falls back to a
  default.
- `argv.dfy` (module `Argv`): `str.split(" ")` and `" ".join`, with their
  round-trip lemmas.
- `processes.dfy` (module `Processes`): an abstract operating system. A
  pure `World` value holds the configuration, the pid → still-running
  table, the next pid, and a log of spawn attempts. It also fixes in
  advance which spawns, polls and kills fail. The `Host` class wraps it
  with `Popen`, `PollProc` and `KillProc`.
- `panel.dfy` (module `SinglePanel`): the pure transitions `StartStep`,
  `CheckStep` and `StopStep`, lemmas about them, and the class
  `PanelLauncher`. Its methods are proved to perform exactly those
  transitions.
- `supervisor.dfy`: module `SupervisorState` holds the supervisor's
  state as a value and the invariant that every tracked pid was issued
  and no two panels track the same pid. Module `Supervisor` holds the
  pure sweep (`ApplyUpTo`, `Sweep`, `StopAll`), tick (`Tick`,
  `RunTicks`) and sweep-count (`Sweeps`) functions, the lemmas about
  them, and the class `PanelsLauncher`. The sweep is stated for any
  per-panel step; the lemmas about distinct pids and dead processes
  hold for every step that `KeepsHandles`, and `check` and `stop` are
  shown to be such steps.

Each class method is proved against a pure function of the old state.
The properties of the source are proved as lemmas about those functions.

## Model

| member | source | states |
|---|---|---|
| Config.AllPanelsEnumeratesRoles | newm/panel_launcher.py:14-20 | the panel list names each of the five roles exactly once |
| Config.DefaultCmd | newm/panel_launcher.py:22-26 | defined by its body, no contract of its own: lock and launcher default to `alacritty -e newm-panel-basic <role>`, every other role to None (proved in Config.Defaults) |
| Config.Lookup | newm/panel_launcher.py:22-28 | defined by its body, no contract of its own: a configured key gives its value, an absent key its declared default |
| Config.Cmd | newm/panel_launcher.py:22-26 | defined by its body, no contract of its own: the command of a role is the lookup of `panels.<role>.cmd` with the role's default command |
| Config.Cwd | newm/panel_launcher.py:28 | defined by its body, no contract of its own: the working directory of a role is the lookup of `panels.<role>.cwd`, defaulting to None |
| Config.Defaults | newm/panel_launcher.py:22-28 | with nothing configured, lock and launcher run `alacritty -e newm-panel-basic <role>`; every other command and every working directory is None |
| Config.CmdKeysIndependent | newm/panel_launcher.py:22-28 | each role has its own command key: setting one role's command changes no other role's command or working directory |
| Argv.Split | newm/panel_launcher.py:51 | splitting always gives at least one argument |
| Argv.JoinSplit | newm/panel_launcher.py:51 | joining the split arguments with single spaces gives back the command |
| Argv.SplitSpaceFree | newm/panel_launcher.py:51 | no argument contains a space |
| Argv.SplitCount | newm/panel_launcher.py:51 | there is exactly one argument more than the command has spaces |
| Argv.SplitJoin | newm/panel_launcher.py:51 | splitting inverts joining space-free arguments, so the argument vector is determined by the command |
| Argv.DoubleSpace | newm/panel_launcher.py:51 | two consecutive spaces give an empty argument between them |
| Processes.Spawn | newm/panel_launcher.py:51 | defined by its body, no contract of its own: a spawn is logged, fails when its attempt index is a fault, and otherwise issues the next pid as running (proved in Processes.SpawnOutcome) |
| Processes.Poll | newm/panel_launcher.py:61 | defined by its body, no contract of its own: a poll raises for a faulty pid, else reports running exactly for a live pid (stated by Processes.Host.PollProc) |
| Processes.Kill | newm/panel_launcher.py:70 | defined by its body, no contract of its own: a kill raises for a faulty pid and otherwise ends the process (stated by SinglePanel.StopOutcome) |
| Processes.SpawnOutcome | newm/panel_launcher.py:50-53 | a spawn attempt is always recorded; it yields a handle exactly when it does not fail, and that handle's pid is new and running |
| Processes.Host.Popen | newm/panel_launcher.py:51 | the host performs the spawn transition |
| Processes.Host.PollProc | newm/panel_launcher.py:61 | the poll raises exactly for a faulty pid; otherwise it reports running exactly when the process is still alive |
| Processes.Host.KillProc | newm/panel_launcher.py:70 | the host performs the kill transition: the process ends unless the kill raises |
| SinglePanel.StartStep | newm/panel_launcher.py:42-53 | defined by its body, no contract of its own: `_start` as a transition; proved in SinglePanel.StartDisabled and SinglePanel.StartEnabled |
| SinglePanel.Dead | newm/panel_launcher.py:61 | defined by its body, no contract of its own: no handle, or a poll that does not report running |
| SinglePanel.CheckStep | newm/panel_launcher.py:55-65 | defined by its body, no contract of its own: `check` as a transition; proved in SinglePanel.CheckDisabledKeepsRunning and SinglePanel.CheckEnabled |
| SinglePanel.StopStep | newm/panel_launcher.py:67-73 | defined by its body, no contract of its own: `stop` as a transition; proved in SinglePanel.StopOutcome |
| SinglePanel.StartDisabled | newm/panel_launcher.py:42-47 | with the command None the handle ends None, even if one was tracked, and nothing is spawned |
| SinglePanel.StartEnabled | newm/panel_launcher.py:42-53 | with a command set there is exactly one spawn attempt, in the configured directory. Its argument vector joins back to the command, has space-free arguments, and has one more argument than spaces. The handle is None exactly when the spawn fails; otherwise it is a new running pid |
| SinglePanel.CheckDisabledKeepsRunning | newm/panel_launcher.py:55-58 | with the command None, check keeps the handle and kills and spawns nothing, so a running process stays running |
| SinglePanel.CheckEnabled | newm/panel_launcher.py:60-65 | with a command set, check restarts exactly when there is no handle, the process has exited, or the poll raises; a live process is left alone |
| SinglePanel.PollFailureLeaksProcess | newm/panel_launcher.py:60-65 | a poll that raises on a live process replaces the handle while the old process keeps running, untracked |
| SinglePanel.StopOutcome | newm/panel_launcher.py:67-73 | with no handle or a successful kill the handle ends None and the process is no longer running; if the kill raises, the handle and environment are unchanged and nothing propagates |
| SinglePanel.PanelLauncher.constructor | newm/panel_launcher.py:31-34 | a new panel has its role and no handle |
| SinglePanel.PanelLauncher.GetPid | newm/panel_launcher.py:36-40 | returns None exactly when no process is tracked, otherwise the tracked pid; it changes nothing |
| SinglePanel.PanelLauncher.Start | newm/panel_launcher.py:42-53 | the handle and environment after `_start` are those of StartStep |
| SinglePanel.PanelLauncher.Check | newm/panel_launcher.py:55-65 | the handle and environment after `check` are those of CheckStep |
| SinglePanel.PanelLauncher.Stop | newm/panel_launcher.py:67-73 | the handle and environment after `stop` are those of StopStep |
| Supervisor.CheckPanel | newm/panel_launcher.py:101-102 | defined by its body, no contract of its own: `check` on one panel of the sweep |
| Supervisor.StopPanel | newm/panel_launcher.py:84-85 | defined by its body, no contract of its own: `stop` on one panel of the supervisor's stop |
| Supervisor.ApplyUpTo | newm/panel_launcher.py:84-85 | a sweep over the first k panels keeps every role in place and does not touch panels it has not reached |
| Supervisor.ApplyAll | newm/panel_launcher.py:84-85 | defined by its body, no contract of its own: a step applied to every panel in list order |
| Supervisor.Sweep | newm/panel_launcher.py:101-102 | defined by its body, no contract of its own: one sweep runs `check` on every panel in list order |
| Supervisor.StopAll | newm/panel_launcher.py:84-85 | defined by its body, no contract of its own: `stop` on every panel in list order (stated by Supervisor.StopAllOutcome) |
| Supervisor.Tick | newm/panel_launcher.py:100-103 | defined by its body, no contract of its own: tick i sweeps exactly when i is a multiple of 50 |
| Supervisor.RunTicks | newm/panel_launcher.py:97-104 | defined by its body, no contract of its own: the ticks 0 … n-1 one after the other (stated by Supervisor.RunSweepCount) |
| Supervisor.Sweeps | newm/panel_launcher.py:100-102 | defined by its body, no contract of its own: k sweeps in a row |
| Supervisor.InitialPanels | newm/panel_launcher.py:80 | defined by its body, no contract of its own: one panel per role of the panel list, none tracking a process (stated by Supervisor.InitialTracked) |
| Supervisor.SweepTicksCount | newm/panel_launcher.py:98-104 | exactly (n + 49) / 50 of the ticks 0 … n-1 are multiples of 50 |
| Supervisor.RunTicksAreSweeps | newm/panel_launcher.py:98-104 | n ticks of the loop equal one full sweep for each multiple of 50 below n |
| Supervisor.RunSweepCount | newm/panel_launcher.py:98-104 | after n ticks exactly (n + 49) / 50 sweeps have run, each over all panels in list order |
| Supervisor.CheckAdmissible | newm/panel_launcher.py:55-65 | a check keeps the handle, clears it, or replaces it with a freshly issued pid; it changes no configuration and no spawn, poll or kill fault, and revives no earlier process |
| Supervisor.StopAdmissible | newm/panel_launcher.py:67-73 | a stop keeps or clears the handle, issues no pid, changes no configuration and no spawn, poll or kill fault, and revives no process |
| Supervisor.PanelStepsKeepHandles | newm/panel_launcher.py:55-73 | check and stop are steps that only keep, clear or freshly replace handles, from any sane environment |
| Supervisor.ReplaceKeepsTracked | newm/panel_launcher.py:42-53 | storing a kept, cleared or freshly issued handle keeps all tracked pids distinct |
| Supervisor.StepKeepsTracked | newm/panel_launcher.py:84-85 | extending a sweep of checks or stops by one more panel keeps all tracked pids distinct |
| Supervisor.ApplyKeepsTracked | newm/panel_launcher.py:84-85 | a sweep of checks or stops keeps all tracked pids distinct and issued by the environment |
| Supervisor.SweepKeepsTracked | newm/panel_launcher.py:101-102 | a sweep of checks keeps all tracked pids distinct and issued by the environment |
| Supervisor.StopAllKeepsTracked | newm/panel_launcher.py:84-85 | stopping every panel keeps all tracked pids distinct and issued by the environment |
| Supervisor.RunKeepsTracked | newm/panel_launcher.py:97-104 | however many ticks run, no two panels track the same pid |
| Supervisor.ExternalKeepsTracked | newm/panel_launcher.py:104 | between two ticks processes may exit and the configuration may be reloaded; the invariant survives any such change |
| Supervisor.SweepKeepsDone | newm/panel_launcher.py:100-102 | once a sweep has passed a panel, the rest of the sweep does not change it |
| Supervisor.DeadStaysDead | newm/panel_launcher.py:61 | a process that is dead or whose poll raises stays so across a change that revives nothing and keeps poll faults |
| Supervisor.SweepKeepsDead | newm/panel_launcher.py:100-102 | the steps before a panel leave its dead process dead, the configuration and spawn faults unchanged and the next pid no smaller |
| Supervisor.CheckDeadStarts | newm/panel_launcher.py:55-65 | a check on an enabled panel whose process is dead, missing, or whose poll raises is exactly `_start` on it, and leaves a newly issued pid or none |
| Supervisor.ApplyAtPanel | newm/panel_launcher.py:101-102 | in a sweep a panel ends as its own step left it, run in the world the panels before it produced; the later panels do not touch it |
| Supervisor.SweepRestartsDead | newm/panel_launcher.py:55-65 | a sweep runs `_start` on an enabled panel that was dead before it: the panel's handle and the world after it are those of `_start` in the world the earlier panels left (same configuration and spawn faults, still sane); the handle is a pid newer than any issued before, or none |
| Supervisor.RestartAfterExternal | newm/panel_launcher.py:97-104 | a panel whose process exits, or whose command is switched on, between ticks gets `_start` from the next sweep: one more spawn attempt is logged, the handle is None exactly when that attempt is one of the environment's spawn faults, and otherwise a pid newer than any issued before |
| Supervisor.InitialTracked | newm/panel_launcher.py:77-80 | a fresh supervisor has one idle panel per role, in order, and satisfies the invariant |
| Supervisor.OwnerUnique | newm/panel_launcher.py:87-95 | when tracked pids are distinct a pid belongs to at most one panel, so the first match is the only one (used by GetPanelForPid) |
| Supervisor.StopKeepsWorld | newm/panel_launcher.py:84-85 | stopping panels spawns nothing, keeps the kill faults and the set of known pids, and revives no process |
| Supervisor.StopClearsHandles | newm/panel_launcher.py:84-85 | stopping the first k panels clears each handle whose kill succeeds and keeps each whose kill raises |
| Supervisor.StopKillsProcesses | newm/panel_launcher.py:84-85 | stopping the first k panels leaves every process they tracked, whose kill did not raise, no longer running |
| Supervisor.StopAllOutcome | newm/panel_launcher.py:82-85 | after a supervisor stop a panel still tracks a process only if killing it raised, and with no failing kill every handle is None; every tracked process whose kill did not raise is no longer running, processes already dead stay dead, and nothing is spawned |
| Supervisor.PanelsLauncher.constructor | newm/panel_launcher.py:77-80 | one fresh, distinct panel per role in the order of the panel list, none tracking a process, running set and the loop counter at zero, as `run` starts it (line 98); with any sane host the invariant holds |
| Supervisor.PanelsLauncher.Stop | newm/panel_launcher.py:82-85 | running becomes false and every panel is stopped in list order (the state is StopAll of the old one); the loop counter is untouched; the invariant is kept |
| Supervisor.PanelsLauncher.GetPanelForPid | newm/panel_launcher.py:87-95 | None for no pid; otherwise the role of the first panel, in order, tracking that pid, or None if none does; when pids are distinct, the role found is that of every panel tracking the pid |
| Supervisor.PanelsLauncher.CheckAll | newm/panel_launcher.py:100-102 | one sweep runs `check` on every panel in list order; the invariant is kept |
| Supervisor.PanelsLauncher.RunTick | newm/panel_launcher.py:99-104 | one pass of the loop body, only while running (the loop guard; after `stop` no pass follows): a sweep exactly when the counter is a multiple of 50, then the counter advances by one; the invariant is kept. Between two calls the host's world may change |
| Supervisor.PanelsLauncher.Run | newm/panel_launcher.py:97-104 | while running, n ticks from a zero counter perform exactly the scheduled sweeps, (n + 49) / 50 of them, and leave the counter at n; a stopped supervisor changes nothing; the invariant is kept |

## Behaviour worth knowing

- `stop` clears the handle only when the kill does not raise: the kill and the clear sit in one `try` (newm/panel_launcher.py:67-73), so a kill that raises leaves the handle set (`SinglePanel.StopOutcome`).
- `cmd.split(" ")` splits on single spaces only: consecutive spaces give empty arguments (`Argv.DoubleSpace`), and tabs do not separate.

## Left out

- Real process creation, polling and killing through `subprocess.Popen`. An abstract `World` stands in for them. Which spawn attempts, polls and kills fail is fixed in advance by the fault sets. A kill of a process that has already exited succeeds and changes nothing. Pids are handed out in increasing order and never reused; a real system may reuse the pid of a reaped process, and the freshness of restarted pids and the distinctness kept by `Tracked` rest on this simplification.
- The internals of `configured_value` in `newm/config`, which is not part of this model. The configuration is a map from key to value, and a key that is absent takes its declared default. The configuration is read afresh on every call. It cannot change in the middle of one method call, so `check` and the `_start` it calls see the same command.
- Processes exiting on their own and the configuration being reloaded are not operations of the launcher. They are external events: between two calls a caller may give the host's `world` any value, and `Processes.External` names the changes the outside world can make during the loop's sleep (the configuration changes, running processes exit; nothing is spawned, and no fault changes).
- The `Thread` base class, and the race between an outside `stop()` and the loop thread's `check()`. The model is sequential.
- Supervisor.PanelsLauncher.Run: models only the first `ticks` ticks of the unbounded `while self._running` loop, and within one call the world does not change between ticks, so no process exits and no configuration is reloaded during those ticks; the flag cannot change either, because no other thread runs. Interleaving the loop with outside events is modelled tick by tick instead, with `Supervisor.PanelsLauncher.RunTick`, `Supervisor.ExternalKeepsTracked` and `Supervisor.RestartAfterExternal`. The half-second `time.sleep` is left out.
- `logging` calls and the unused `psutil` import.

=== FILE: argv.dfy ===
/**
 * Turning a configured command line into an argument vector, the way
 * Python's `str.split(" ")` does it: every single space separates two
 * arguments, so there is no quoting and runs of spaces give empty
 * arguments.
 */
module Argv {

  /** The pieces of `s` between its spaces, in order. */
  function Split(s: string): (parts: seq<string>)
    ensures |parts| >= 1
  {
    if |s| == 0 then [""]
    else
      var rest := Split(s[1..]);
      if s[0] == ' ' then [""] + rest
      else [[s[0]] + rest[0]] + rest[1..]
  }

  /** `" ".join(parts)`: the pieces with one space between neighbours. */
  function Join(parts: seq<string>): string
    requires |parts| >= 1
  {
    if |parts| == 1 then parts[0] else parts[0] + " " + Join(parts[1..])
  }

  /** The number of spaces in `s`. */
  function Spaces(s: string): nat
  {
    if |s| == 0 then 0 else (if s[0] == ' ' then 1 else 0) + Spaces(s[1..])
  }

  predicate SpaceFree(s: string)
  {
    forall i :: 0 <= i < |s| ==> s[i] != ' '
  }

  /** Prefixing a character to the first argument prefixes it to the joined line. */
  lemma {:induction false} JoinExtendFirst(c: char, parts: seq<string>)
    requires |parts| >= 1
    ensures Join([[c] + parts[0]] + parts[1..]) == [c] + Join(parts)
  {
    var ext := [[c] + parts[0]] + parts[1..];
    assert |ext| == |parts| && ext[0] == [c] + parts[0] && ext[1..] == parts[1..];
    if |parts| > 1 {
      var tail := " " + Join(parts[1..]);
      assert Join(ext) == ([c] + parts[0]) + tail;
      assert Join(parts) == parts[0] + tail;
      assert ([c] + parts[0]) + tail == [c] + (parts[0] + tail);
    }
  }

  /** Joining the arguments with single spaces gives back the command line. */
  lemma {:induction false} JoinSplit(s: string)
    ensures Join(Split(s)) == s
  {
    if |s| > 0 {
      var rest := Split(s[1..]);
      JoinSplit(s[1..]);
      if s[0] == ' ' {
        assert Split(s)[1..] == rest;
        assert s == " " + s[1..];
      } else {
        JoinExtendFirst(s[0], rest);
        assert s == [s[0]] + s[1..];
      }
    }
  }

  /** No argument contains a space. */
  lemma {:induction false} SplitSpaceFree(s: string)
    ensures forall k :: 0 <= k < |Split(s)| ==> SpaceFree(Split(s)[k])
  {
    if |s| > 0 {
      SplitSpaceFree(s[1..]);
      var rest := Split(s[1..]);
      if s[0] != ' ' {
        assert SpaceFree(rest[0]);
        assert SpaceFree([s[0]] + rest[0]);
        forall k | 1 <= k < |Split(s)| ensures SpaceFree(Split(s)[k]) {
          assert Split(s)[k] == rest[k];
        }
      } else {
        forall k | 1 <= k < |Split(s)| ensures SpaceFree(Split(s)[k]) {
          assert Split(s)[k] == rest[k - 1];
        }
      }
    }
  }

  /** There is one argument more than there are spaces. */
  lemma {:induction false} SplitCount(s: string)
    ensures |Split(s)| == Spaces(s) + 1
  {
    if |s| > 0 {
      SplitCount(s[1..]);
    }
  }

  /** Splitting a space-free prefix off the front extends the first argument. */
  lemma {:induction false} SplitPrefix(p: string, t: string)
    requires SpaceFree(p)
    ensures Split(p + t) == [p + Split(t)[0]] + Split(t)[1..]
  {
    if |p| == 0 {
      assert p + t == t;
      assert p + Split(t)[0] == Split(t)[0];
    } else {
      SplitPrefix(p[1..], t);
      assert (p + t)[1..] == p[1..] + t;
      assert [p[0]] + (p[1..] + Split(t)[0]) == p + Split(t)[0];
    }
  }

  /**
   * Splitting is the inverse of joining space-free arguments: the
   * argument vector is determined by the command line alone.
   */
  lemma {:induction false} SplitJoin(parts: seq<string>)
    requires |parts| >= 1
    requires forall k :: 0 <= k < |parts| ==> SpaceFree(parts[k])
    ensures Split(Join(parts)) == parts
  {
    if |parts| == 1 {
      SplitPrefix(parts[0], "");
      assert parts[0] + "" == parts[0];
    } else {
      SplitJoin(parts[1..]);
      var tail := " " + Join(parts[1..]);
      SplitPrefix(parts[0], tail);
      assert tail[1..] == Join(parts[1..]);
      assert Split(tail) == [""] + parts[1..];
      assert parts[0] + "" == parts[0];
      assert parts[0] + " " + Join(parts[1..]) == parts[0] + (" " + Join(parts[1..]));
      assert parts == [parts[0]] + parts[1..];
    }
  }

  /** Two spaces in a row give an empty argument between them. */
  lemma DoubleSpace(a: string, b: string)
    requires SpaceFree(a) && SpaceFree(b)
    ensures Split(a + "  " + b) == [a, "", b]
  {
    SplitJoin([a, "", b]);
    assert [a, "", b][1..] == ["", b] && ["", b][1..] == [b];
    assert Join(["", b]) == "" + " " + b;
    assert Join([a, "", b]) == a + " " + Join(["", b]);
    assert a + " " + ("" + " " + b) == a + "  " + b;
  }
}

=== FILE: config.dfy ===
/**
 * The fixed set of panel roles and the configuration lookup that
 * resolves each role's command and working directory.
 */
module Config {

  datatype Option<T> = None | Some(value: T)

  /** The closed set of panels the shell knows about. */
  datatype Role = Lock | Launcher | TopBar | BottomBar | Bar

  /** The roles in the order the supervisor creates its panels. */
  const AllPanels: seq<Role> := [Lock, Launcher, TopBar, BottomBar, Bar]

  /** The name a role is known by in configuration keys. */
  function Name(r: Role): string
  {
    match r
    case Lock => "lock"
    case Launcher => "launcher"
    case TopBar => "top_bar"
    case BottomBar => "bottom_bar"
    case Bar => "bar"
  }

  /** Every role occurs in AllPanels, exactly once. */
  lemma AllPanelsEnumeratesRoles()
    ensures |AllPanels| == 5
    ensures forall r: Role :: r in AllPanels
    ensures forall i, j :: 0 <= i < j < |AllPanels| ==> AllPanels[i] != AllPanels[j]
  {
    forall r: Role ensures r in AllPanels {
      match r
      case Lock => assert AllPanels[0] == r;
      case Launcher => assert AllPanels[1] == r;
      case TopBar => assert AllPanels[2] == r;
      case BottomBar => assert AllPanels[3] == r;
      case Bar => assert AllPanels[4] == r;
    }
  }

  /**
   * The user's configuration as it stands at one moment: the value
   * given for each key that is set. A key that is not set takes the
   * default its reader was declared with.
   */
  datatype Settings = Settings(values: map<string, Option<string>>)

  function CmdKey(r: Role): string
  {
    "panels." + Name(r) + ".cmd"
  }

  function CwdKey(r: Role): string
  {
    "panels." + Name(r) + ".cwd"
  }

  /** The command a role runs when its key is not set. */
  function DefaultCmd(r: Role): Option<string>
  {
    match r
    case Lock => Some("alacritty -e newm-panel-basic lock")
    case Launcher => Some("alacritty -e newm-panel-basic launcher")
    case _ => None
  }

  function Lookup(s: Settings, key: string, default: Option<string>): Option<string>
  {
    if key in s.values then s.values[key] else default
  }

  /** The command currently configured for a role; None disables it. */
  function Cmd(s: Settings, r: Role): Option<string>
  {
    Lookup(s, CmdKey(r), DefaultCmd(r))
  }

  /** The working directory currently configured for a role. */
  function Cwd(s: Settings, r: Role): Option<string>
  {
    Lookup(s, CwdKey(r), None)
  }

  /**
   * With nothing configured, the lock screen and the launcher run the
   * basic panel in a terminal, every other role is disabled, and no
   * role has a working directory.
   */
  lemma Defaults(s: Settings, r: Role)
    requires CmdKey(r) !in s.values && CwdKey(r) !in s.values
    ensures Cmd(s, r) == if r == Lock || r == Launcher
                         then Some("alacritty -e newm-panel-basic " + Name(r))
                         else None
    ensures Cwd(s, r) == None
  {
    match r
    case Lock => assert "alacritty -e newm-panel-basic " + "lock" == "alacritty -e newm-panel-basic lock";
    case Launcher =>
      assert "alacritty -e newm-panel-basic " + "launcher" == "alacritty -e newm-panel-basic launcher";
    case _ =>
  }

  /** Setting one role's command leaves every other role's command as it was. */
  lemma CmdKeysIndependent(s: Settings, r: Role, other: Role, v: Option<string>)
    requires r != other
    ensures Cmd(Settings(s.values[CmdKey(r) := v]), other) == Cmd(s, other)
    ensures Cwd(Settings(s.values[CmdKey(r) := v]), other) == Cwd(s, other)
    ensures Cmd(Settings(s.values[CmdKey(r) := v]), r) == v
  {
  }
}

=== FILE: panel.dfy ===
/**
 * One supervised panel: the optional handle on its process and the
 * start, check and stop transitions that replace or clear it.
 */
module SinglePanel {
  import opened Config
  import opened Argv
  import opened Processes

  /**
   * `_start`: forget the current handle, re-read the role's command and
   * working directory, and spawn the command split on spaces unless it
   * is disabled. Yields the new handle and the new environment.
   */
  function StartStep(w: World, role: Role): (Option<Proc>, World)
  {
    match Cmd(w.settings, role)
    case None => (None, w)
    case Some(cmd) => Spawn(w, Split(cmd), Cwd(w.settings, role))
  }

  /** A handle counts as dead when absent, exited, or when polling it raises. */
  predicate Dead(w: World, proc: Option<Proc>)
  {
    proc.None? || Poll(w, proc.value) != Running
  }

  /** `check`: with the role enabled, replace a dead handle by a fresh start. */
  function CheckStep(w: World, role: Role, proc: Option<Proc>): (Option<Proc>, World)
  {
    if Cmd(w.settings, role).None? then (proc, w)
    else if Dead(w, proc) then StartStep(w, role)
    else (proc, w)
  }

  /** `stop`: kill the tracked process, clearing the handle only if the kill did not raise. */
  function StopStep(w: World, proc: Option<Proc>): (Option<Proc>, World)
  {
    match proc
    case None => (None, w)
    case Some(h) =>
      var (ok, w') := Kill(w, h);
      if ok then (None, w') else (proc, w')
  }

  /** A disabled role starts nothing: the handle ends empty and the environment is untouched. */
  lemma StartDisabled(w: World, role: Role)
    requires Cmd(w.settings, role) == None
    ensures StartStep(w, role) == (None, w)
  {
  }

  /**
   * An enabled role makes exactly one spawn attempt, with an argument
   * vector that joins back to the command and whose arguments hold no
   * space, in the configured working directory. The handle is empty
   * exactly when the attempt fails; otherwise it is a new, running pid.
   */
  lemma StartEnabled(w: World, role: Role, cmd: string)
    requires Sane(w)
    requires Cmd(w.settings, role) == Some(cmd)
    ensures var (h, w') := StartStep(w, role);
      && |w'.launches| == |w.launches| + 1
      && w'.launches[..|w.launches|] == w.launches
      && var argv := w'.launches[|w.launches|].argv;
      && Join(argv) == cmd
      && (forall k :: 0 <= k < |argv| ==> SpaceFree(argv[k]))
      && |argv| == Spaces(cmd) + 1
      && w'.launches[|w.launches|].cwd == Cwd(w.settings, role)
      && (h.None? <==> |w.launches| in w.spawnFaults)
      && (h.None? ==> w'.alive == w.alive)
      && (h.Some? ==> h.value.pid !in w.alive && w'.alive == w.alive[h.value.pid := true])
      && w'.settings == w.settings
      && Sane(w')
  {
    JoinSplit(cmd);
    SplitSpaceFree(cmd);
    SplitCount(cmd);
    SpawnOutcome(w, Split(cmd), Cwd(w.settings, role));
    var w' := StartStep(w, role).1;
    assert w'.launches == w.launches + [Launch(Split(cmd), Cwd(w.settings, role))];
  }

  /**
   * With the role disabled, a check changes nothing: in particular a
   * process that is still running keeps running and stays tracked.
   */
  lemma CheckDisabledKeepsRunning(w: World, role: Role, proc: Option<Proc>)
    requires Cmd(w.settings, role) == None
    ensures var (h, w') := CheckStep(w, role, proc);
      && h == proc
      && w'.alive == w.alive
      && w'.launches == w.launches
  {
  }

  /**
   * With the role enabled, a check restarts exactly when there is no
   * handle, the process has exited, or polling it raises; a live
   * process is left alone.
   */
  lemma CheckEnabled(w: World, role: Role, proc: Option<Proc>)
    requires Cmd(w.settings, role).Some?
    ensures var dead := proc.None? || proc.value.pid in w.pollFaults
                        || !(proc.value.pid in w.alive && w.alive[proc.value.pid]);
      && (dead ==> CheckStep(w, role, proc) == StartStep(w, role))
      && (!dead ==> CheckStep(w, role, proc) == (proc, w))
  {
  }

  /**
   * A poll that raises on a process that is still running makes the
   * check start a second process while the first one keeps running,
   * no longer tracked by anyone.
   */
  lemma PollFailureLeaksProcess(w: World, role: Role, h: Proc)
    requires Sane(w)
    requires Cmd(w.settings, role).Some?
    requires h.pid in w.pollFaults && h.pid in w.alive && w.alive[h.pid]
    ensures var (h', w') := CheckStep(w, role, Some(h));
      && h' != Some(h)
      && h.pid in w'.alive && w'.alive[h.pid]
  {
    var cmd := Cmd(w.settings, role).value;
    assert CheckStep(w, role, Some(h)) == Spawn(w, Split(cmd), Cwd(w.settings, role));
    SpawnOutcome(w, Split(cmd), Cwd(w.settings, role));
  }

  /**
   * Stopping clears the handle when there is none or the kill succeeds,
   * and then the process is no longer running; when the kill raises,
   * the handle and the environment are left as they were.
   */
  lemma StopOutcome(w: World, proc: Option<Proc>)
    ensures var (h, w') := StopStep(w, proc);
      && (proc.None? || proc.value.pid !in w.killFaults ==>
            h == None && (proc.Some? && proc.value.pid in w.alive ==> !w'.alive[proc.value.pid]))
      && (proc.Some? && proc.value.pid in w.killFaults ==> h == proc && w' == w)
      && w'.launches == w.launches && w'.nextPid == w.nextPid
  {
  }

  /** `PanelLauncher`: the role it supervises and the handle on its process, if any. */
  class PanelLauncher {
    const panel: Role
    var proc: Option<Proc>

    constructor (panel: Role)
      ensures this.panel == panel && proc == None
    {
      this.panel := panel;
      proc := None;
    }

    /** `get_pid`: the tracked process's pid, or None when nothing is tracked. */
    method GetPid() returns (pid: Option<int>)
      ensures pid.None? <==> proc.None?
      ensures proc.Some? ==> pid == Some(proc.value.pid)
    {
      if proc.Some? {
        pid := Some(proc.value.pid);
      } else {
        pid := None;
      }
    }

    /** `_start` */
    method Start(host: Host)
      modifies this, host
      ensures (proc, host.world) == StartStep(old(host.world), panel)
    {
      proc := None;
      var cmd, cwd := Cmd(host.world.settings, panel), Cwd(host.world.settings, panel);
      if cmd.None? {
        return;
      }
      proc := host.Popen(Split(cmd.value), cwd);
    }

    /** `check` */
    method Check(host: Host)
      modifies this, host
      ensures (proc, host.world) == CheckStep(old(host.world), panel, old(proc))
    {
      var cmd := Cmd(host.world.settings, panel);
      if cmd.None? {
        return;
      }
      var dead := proc.None?;
      if !dead {
        var st := host.PollProc(proc.value);
        dead := st != Running;
      }
      if dead {
        Start(host);
      }
    }

    /** `stop` */
    method Stop(host: Host)
      modifies this, host
      ensures (proc, host.world) == StopStep(old(host.world), old(proc))
    {
      if proc.Some? {
        var ok := host.KillProc(proc.value);
        if !ok {
          return;
        }
      }
      proc := None;
    }
  }
}

=== FILE: processes.dfy ===
/**
 * An abstract stand-in for the operating system as the panel launcher
 * sees it: spawning a child process, polling it for exit and killing
 * it, each of which may fail, plus the configuration that is read on
 * every use.
 */
module Processes {
  import opened Config

  /** A handle on a spawned child process. */
  datatype Proc = Proc(pid: int)

  /** One attempt to spawn: the argument vector and working directory asked for. */
  datatype Launch = Launch(argv: seq<string>, cwd: Option<string>)

  /** What polling a child reports: still running, exited, or the poll itself raised. */
  datatype PollStatus = Running | Exited | PollFailed

  /**
   * The environment at one moment. `alive` maps the pid of every child
   * ever spawned to whether it is still running; `launches` records every
   * spawn attempt in order. Which operations fail is fixed up front:
   * spawn attempt number n fails when n is in `spawnFaults`, and polling
   * or killing a pid raises when it is in `pollFaults` or `killFaults`.
   */
  datatype World = World(
    settings: Settings,
    alive: map<int, bool>,
    nextPid: int,
    launches: seq<Launch>,
    spawnFaults: set<nat>,
    pollFaults: set<int>,
    killFaults: set<int>)

  /** Every pid handed out so far lies below `nextPid`. */
  ghost predicate Sane(w: World)
  {
    forall p :: p in w.alive ==> p < w.nextPid
  }

  /** No process handed out before `w` is running again in `w'`. */
  ghost predicate NoRevival(w: World, w': World)
  {
    forall p :: p < w.nextPid && p in w'.alive && w'.alive[p] ==> p in w.alive && w.alive[p]
  }

  /**
   * What the world outside the launcher may do between two ticks of the
   * supervisor: processes exit on their own and the configuration is
   * reloaded with any values. Nothing is spawned, no process comes back,
   * and which operations fail stays fixed.
   */
  ghost predicate External(w: World, w': World)
  {
    && w'.nextPid == w.nextPid
    && w'.launches == w.launches
    && w'.spawnFaults == w.spawnFaults
    && w'.pollFaults == w.pollFaults
    && w'.killFaults == w.killFaults
    && (forall p :: p in w'.alive ==> p in w.alive)
    && NoRevival(w, w')
  }

  function Spawn(w: World, argv: seq<string>, cwd: Option<string>): (Option<Proc>, World)
  {
    var tried := w.(launches := w.launches + [Launch(argv, cwd)]);
    if |w.launches| in w.spawnFaults then (None, tried)
    else (Some(Proc(w.nextPid)), tried.(alive := w.alive[w.nextPid := true], nextPid := w.nextPid + 1))
  }

  function Poll(w: World, h: Proc): PollStatus
  {
    if h.pid in w.pollFaults then PollFailed
    else if h.pid in w.alive && w.alive[h.pid] then Running
    else Exited
  }

  /** Killing succeeds unless the pid is one whose kill raises; it ends the process. */
  function Kill(w: World, h: Proc): (bool, World)
  {
    if h.pid in w.killFaults then (false, w)
    else if h.pid in w.alive then (true, w.(alive := w.alive[h.pid := false]))
    else (true, w)
  }

  /**
   * A spawn records the attempt; it yields a handle exactly when the
   * attempt is not one that fails, and that handle's pid is new and
   * now running.
   */
  lemma SpawnOutcome(w: World, argv: seq<string>, cwd: Option<string>)
    requires Sane(w)
    ensures var (h, w') := Spawn(w, argv, cwd);
      && w'.launches == w.launches + [Launch(argv, cwd)]
      && (h.None? <==> |w.launches| in w.spawnFaults)
      && (h.None? ==> w'.alive == w.alive && w'.nextPid == w.nextPid)
      && (h.Some? ==> h.value.pid !in w.alive && w'.alive == w.alive[h.value.pid := true]
                      && w'.nextPid > h.value.pid)
      && Sane(w')
  {
  }

  /** The host whose process table and configuration the launcher works against. */
  class Host {
    var world: World

    /** `subprocess.Popen(argv, cwd=cwd)`; None when spawning raised. */
    method Popen(argv: seq<string>, cwd: Option<string>) returns (h: Option<Proc>)
      modifies this
      ensures (h, world) == Spawn(old(world), argv, cwd)
    {
      var attempt := |world.launches|;
      world := world.(launches := world.launches + [Launch(argv, cwd)]);
      if attempt in world.spawnFaults {
        h := None;
      } else {
        h := Some(Proc(world.nextPid));
        world := world.(alive := world.alive[world.nextPid := true], nextPid := world.nextPid + 1);
      }
    }

    /** `proc.poll()`, with a raising poll reported as PollFailed. */
    method PollProc(h: Proc) returns (st: PollStatus)
      ensures st == Poll(world, h)
      ensures st == PollFailed <==> h.pid in world.pollFaults
      ensures st == Running <==> h.pid !in world.pollFaults && h.pid in world.alive && world.alive[h.pid]
    {
      if h.pid in world.pollFaults {
        st := PollFailed;
      } else if h.pid in world.alive && world.alive[h.pid] {
        st := Running;
      } else {
        st := Exited;
      }
    }

    /** `proc.kill()`; false when it raised. */
    method KillProc(h: Proc) returns (ok: bool)
      modifies this
      ensures (ok, world) == Kill(old(world), h)
    {
      ok := h.pid !in world.killFaults;
      if ok && h.pid in world.alive {
        world := world.(alive := world.alive[h.pid := false]);
      }
    }
  }
}

=== FILE: supervisor.dfy ===
/**
 * What the supervisor holds, as values: the environment and one role
 * and handle per panel, and the invariant it keeps over them.
 */
module SupervisorState {
  import opened Config
  import opened Processes

  /** One panel as the supervisor sees it: its role and its handle. */
  datatype PanelState = PanelState(role: Role, proc: Option<Proc>)

  /** The environment together with the panels, in supervisor order. */
  datatype Sup = Sup(world: World, panels: seq<PanelState>)

  /** No two panels track the same pid. */
  ghost predicate DistinctPids(ps: seq<PanelState>)
  {
    forall i, j ::
      (0 <= i < |ps| && 0 <= j < |ps| && i != j && ps[i].proc.Some? && ps[j].proc.Some?) ==>
      ps[i].proc.value.pid != ps[j].proc.value.pid
  }

  /**
   * The invariant the supervisor keeps: every tracked pid was handed
   * out by the environment, and no two panels track the same pid.
   */
  ghost predicate Tracked(s: Sup)
  {
    && Sane(s.world)
    && (forall i :: 0 <= i < |s.panels| && s.panels[i].proc.Some? ==>
          s.panels[i].proc.value.pid < s.world.nextPid)
    && DistinctPids(s.panels)
  }
}

/**
 * The supervisor: one panel per role in a fixed order, a running flag,
 * a tick loop that sweeps a check over every panel once every
 * `CheckPeriod` ticks, a stop that stops every panel, and the reverse
 * lookup from a pid to the role whose process it is.
 */
module Supervisor {
  import opened Config
  import opened Processes
  import opened SinglePanel
  import opened SupervisorState

  /** Ticks between two sweeps of checks. */
  const CheckPeriod: nat := 50

  /** A per-panel transition: the panel's new handle and the new environment. */
  type PanelStep = (World, PanelState) -> (Option<Proc>, World)

  /** `check` on one panel. */
  function CheckPanel(w: World, p: PanelState): (Option<Proc>, World)
  {
    CheckStep(w, p.role, p.proc)
  }

  /** `stop` on one panel. */
  function StopPanel(w: World, p: PanelState): (Option<Proc>, World)
  {
    StopStep(w, p.proc)
  }

  /**
   * The state after `step` has been applied to the first `k` panels, one
   * after the other. Roles never change, and panels not yet reached are
   * untouched.
   */
  function ApplyUpTo(step: PanelStep, s: Sup, k: nat): (r: Sup)
    requires k <= |s.panels|
    ensures |r.panels| == |s.panels|
    ensures forall i :: 0 <= i < |s.panels| ==> r.panels[i].role == s.panels[i].role
    ensures forall i :: k <= i < |s.panels| ==> r.panels[i] == s.panels[i]
  {
    if k == 0 then s
    else
      var prev := ApplyUpTo(step, s, k - 1);
      var r := step(prev.world, prev.panels[k - 1]);
      Sup(r.1, prev.panels[k - 1 := PanelState(prev.panels[k - 1].role, r.0)])
  }

  /** `step` applied to every panel, in list order. */
  function ApplyAll(step: PanelStep, s: Sup): Sup
  {
    ApplyUpTo(step, s, |s.panels|)
  }

  /** One sweep of the loop: `check` on every panel, in list order. */
  function Sweep(s: Sup): Sup
  {
    ApplyAll(CheckPanel, s)
  }

  /** The panel part of the supervisor's `stop`: `stop` on every panel, in list order. */
  function StopAll(s: Sup): Sup
  {
    ApplyAll(StopPanel, s)
  }

  /*
   * The loop's schedule is stated for an arbitrary sweep function, so
   * that it can be reasoned about apart from what a sweep does; the
   * supervisor instantiates it with Sweep.
   */

  /** Tick number `i` of the loop: a sweep when `i` is a multiple of the period. */
  function Tick(sweep: Sup -> Sup, s: Sup, i: nat): Sup
  {
    if i % CheckPeriod == 0 then sweep(s) else s
  }

  /** The state after ticks 0, 1, ..., n - 1. */
  function RunTicks(sweep: Sup -> Sup, s: Sup, n: nat): Sup
  {
    if n == 0 then s else Tick(sweep, RunTicks(sweep, s, n - 1), n - 1)
  }

  /** The state after `k` sweeps in a row. */
  function Sweeps(sweep: Sup -> Sup, s: Sup, k: nat): Sup
  {
    if k == 0 then s else sweep(Sweeps(sweep, s, k - 1))
  }

  /** The panels of a fresh supervisor: one per role, in order, none tracking a process. */
  function InitialPanels(): seq<PanelState>
  {
    seq(|AllPanels|, i requires 0 <= i < |AllPanels| => PanelState(AllPanels[i], None))
  }

  /** The number of ticks below n at which a sweep happens. */
  function SweepTicks(n: nat): nat
  {
    if n == 0 then 0 else SweepTicks(n - 1) + (if (n - 1) % CheckPeriod == 0 then 1 else 0)
  }

  /** Sweeps happen on ticks 0, 50, 100, ...: after n ticks, (n + 49) / 50 of them. */
  lemma {:induction false} SweepTicksCount(n: nat)
    ensures SweepTicks(n) == (n + CheckPeriod - 1) / CheckPeriod
  {
    if n > 0 {
      SweepTicksCount(n - 1);
      var m := n - 1;
      var q, r := m / CheckPeriod, m % CheckPeriod;
      assert m == CheckPeriod * q + r;
      if r == 0 {
        assert (m + CheckPeriod - 1) / CheckPeriod == q;
        assert (n + CheckPeriod - 1) / CheckPeriod == q + 1;
      } else {
        assert (m + CheckPeriod - 1) / CheckPeriod == q + 1;
        assert (n + CheckPeriod - 1) / CheckPeriod == q + 1;
      }
    }
  }

  /** Running n ticks is the same as running one sweep per multiple of the period below n. */
  lemma {:induction false} RunTicksAreSweeps(sweep: Sup -> Sup, s: Sup, n: nat)
    ensures RunTicks(sweep, s, n) == Sweeps(sweep, s, SweepTicks(n))
  {
    if n > 0 {
      RunTicksAreSweeps(sweep, s, n - 1);
    }
  }

  /** After n ticks exactly (n + 49) / 50 sweeps have run. */
  lemma RunSweepCount(sweep: Sup -> Sup, s: Sup, n: nat)
    ensures RunTicks(sweep, s, n) == Sweeps(sweep, s, (n + CheckPeriod - 1) / CheckPeriod)
  {
    RunTicksAreSweeps(sweep, s, n);
    SweepTicksCount(n);
  }

  /**
   * What a single panel step may do: keep the handle, clear it, or
   * replace it by a pid the environment has just handed out. It never
   * touches the configuration or which operations fail, and it brings
   * no earlier process back to life.
   */
  ghost predicate Admissible(w: World, p: PanelState, r: (Option<Proc>, World))
  {
    && Sane(r.1)
    && r.1.nextPid >= w.nextPid
    && (r.0 == p.proc || r.0 == None || w.nextPid <= r.0.value.pid < r.1.nextPid)
    && r.1.settings == w.settings
    && r.1.killFaults == w.killFaults
    && r.1.pollFaults == w.pollFaults
    && r.1.spawnFaults == w.spawnFaults
    && NoRevival(w, r.1)
  }

  /** Every step of `step` from a sane environment is admissible. */
  ghost predicate KeepsHandles(step: PanelStep)
  {
    forall w: World, p: PanelState :: Sane(w) ==> Admissible(w, p, step(w, p))
  }

  /** `check` on one panel only keeps, clears or freshly replaces its handle. */
  lemma CheckAdmissible(w: World, p: PanelState)
    requires Sane(w)
    ensures Admissible(w, p, CheckPanel(w, p))
  {
    if Cmd(w.settings, p.role).Some? && Dead(w, p.proc) {
      var cmd := Cmd(w.settings, p.role).value;
      assert CheckPanel(w, p) == Spawn(w, Argv.Split(cmd), Cwd(w.settings, p.role));
      SpawnOutcome(w, Argv.Split(cmd), Cwd(w.settings, p.role));
    }
  }

  /** `stop` on one panel only keeps or clears its handle and spawns nothing. */
  lemma StopAdmissible(w: World, p: PanelState)
    requires Sane(w)
    ensures Admissible(w, p, StopPanel(w, p))
    ensures StopPanel(w, p).1.nextPid == w.nextPid
  {
  }

  lemma PanelStepsKeepHandles()
    ensures KeepsHandles(CheckPanel) && KeepsHandles(StopPanel)
  {
    forall w: World, p: PanelState | Sane(w)
      ensures Admissible(w, p, CheckPanel(w, p)) && Admissible(w, p, StopPanel(w, p))
    {
      CheckAdmissible(w, p);
      StopAdmissible(w, p);
    }
  }

  /** Sweeping checks or stops over the panels keeps every tracked pid distinct. */
  lemma {:induction false} ApplyKeepsTracked(step: PanelStep, s: Sup, k: nat)
    requires KeepsHandles(step)
    requires k <= |s.panels|
    requires Tracked(s)
    ensures Tracked(ApplyUpTo(step, s, k))
  {
    if k > 0 {
      ApplyKeepsTracked(step, s, k - 1);
      StepKeepsTracked(step, s, k - 1);
    }
  }

  /** Applying `step` to one more panel keeps every tracked pid distinct. */
  lemma StepKeepsTracked(step: PanelStep, s: Sup, k: nat)
    requires KeepsHandles(step)
    requires k < |s.panels|
    requires Tracked(ApplyUpTo(step, s, k))
    ensures Tracked(ApplyUpTo(step, s, k + 1))
  {
    var prev := ApplyUpTo(step, s, k);
    var r := step(prev.world, prev.panels[k]);
    assert Admissible(prev.world, prev.panels[k], r);
    ReplaceKeepsTracked(prev, k, r.0, r.1);
  }

  /**
   * Putting a cleared, kept or newly handed-out handle into one panel
   * keeps every tracked pid distinct.
   */
  lemma ReplaceKeepsTracked(s: Sup, k: nat, h: Option<Proc>, w': World)
    requires Tracked(s) && k < |s.panels|
    requires Sane(w') && w'.nextPid >= s.world.nextPid
    requires h == s.panels[k].proc || h == None || s.world.nextPid <= h.value.pid < w'.nextPid
    ensures Tracked(Sup(w', s.panels[k := PanelState(s.panels[k].role, h)]))
  {
    var ps := s.panels[k := PanelState(s.panels[k].role, h)];
    assert DistinctPids(ps) by {
      forall i, j | 0 <= i < |ps| && 0 <= j < |ps| && i != j && ps[i].proc.Some? && ps[j].proc.Some?
      ensures ps[i].proc.value.pid != ps[j].proc.value.pid
      {
        if i != k && j != k {
          assert ps[i] == s.panels[i] && ps[j] == s.panels[j];
        }
      }
    }
  }

  /** A sweep of checks keeps the invariant. */
  lemma SweepKeepsTracked(s: Sup)
    requires Tracked(s)
    ensures Tracked(Sweep(s))
  {
    PanelStepsKeepHandles();
    ApplyKeepsTracked(CheckPanel, s, |s.panels|);
  }

  /** Stopping every panel keeps the invariant. */
  lemma StopAllKeepsTracked(s: Sup)
    requires Tracked(s)
    ensures Tracked(StopAll(s))
  {
    PanelStepsKeepHandles();
    ApplyKeepsTracked(StopPanel, s, |s.panels|);
  }

  /** However many ticks run, no two panels ever track the same pid. */
  lemma {:induction false} RunKeepsTracked(s: Sup, n: nat)
    requires Tracked(s)
    ensures Tracked(RunTicks(Sweep, s, n))
  {
    if n > 0 {
      RunKeepsTracked(s, n - 1);
      SweepKeepsTracked(RunTicks(Sweep, s, n - 1));
    }
  }

  /**
   * Whatever the outside world does between two ticks (processes exit,
   * the configuration is reloaded), the invariant still holds.
   */
  lemma ExternalKeepsTracked(s: Sup, w': World)
    requires Tracked(s)
    requires External(s.world, w')
    ensures Tracked(Sup(w', s.panels))
  {
  }

  /** A sweep that has passed panel `k` does not touch it again. */
  lemma {:induction false} SweepKeepsDone(step: PanelStep, s: Sup, k: nat, j: nat)
    requires k < j <= |s.panels|
    ensures ApplyUpTo(step, s, j).panels[k] == ApplyUpTo(step, s, k + 1).panels[k]
  {
    if j > k + 1 {
      SweepKeepsDone(step, s, k, j - 1);
    }
  }

  /**
   * The steps a sweep takes before reaching panel `k` leave its process
   * dead and its configuration as it was.
   */
  lemma {:induction false} SweepKeepsDead(step: PanelStep, s: Sup, k: nat, j: nat)
    requires KeepsHandles(step)
    requires Tracked(s)
    requires j <= k < |s.panels|
    requires Dead(s.world, s.panels[k].proc)
    ensures Dead(ApplyUpTo(step, s, j).world, s.panels[k].proc)
    ensures ApplyUpTo(step, s, j).world.settings == s.world.settings
    ensures ApplyUpTo(step, s, j).world.spawnFaults == s.world.spawnFaults
    ensures ApplyUpTo(step, s, j).world.nextPid >= s.world.nextPid
  {
    if j > 0 {
      SweepKeepsDead(step, s, k, j - 1);
      ApplyKeepsTracked(step, s, j - 1);
      var prev := ApplyUpTo(step, s, j - 1);
      var r := step(prev.world, prev.panels[j - 1]);
      assert Admissible(prev.world, prev.panels[j - 1], r);
      DeadStaysDead(prev.world, r.1, s.panels[k].proc);
    }
  }

  /** A dead process stays dead across a change that revives nothing. */
  lemma DeadStaysDead(w: World, w': World, proc: Option<Proc>)
    requires proc.Some? ==> proc.value.pid < w.nextPid
    requires w'.pollFaults == w.pollFaults
    requires NoRevival(w, w')
    requires Dead(w, proc)
    ensures Dead(w', proc)
  {
    if proc.Some? {
      var pid := proc.value.pid;
      assert pid in w'.alive && w'.alive[pid] ==> pid in w.alive && w.alive[pid];
    }
  }

  /**
   * A sweep runs `_start` on a panel whose role is enabled and whose
   * process has died, or whose poll raises, or which has none. The start
   * runs in the world the panels before it left, and the panel then
   * tracks a pid newer than any handed out before the sweep, or nothing.
   */
  lemma SweepRestartsDead(s: Sup, k: nat)
    requires Tracked(s)
    requires k < |s.panels|
    requires Cmd(s.world.settings, s.panels[k].role).Some?
    requires Dead(s.world, s.panels[k].proc)
    ensures var w0 := ApplyUpTo(CheckPanel, s, k).world;
      && Sane(w0)
      && w0.settings == s.world.settings
      && w0.spawnFaults == s.world.spawnFaults
      && Sweep(s).panels[k].proc == StartStep(w0, s.panels[k].role).0
      && ApplyUpTo(CheckPanel, s, k + 1).world == StartStep(w0, s.panels[k].role).1
    ensures var h := Sweep(s).panels[k].proc;
      h.None? || s.world.nextPid <= h.value.pid
  {
    PanelStepsKeepHandles();
    SweepKeepsDead(CheckPanel, s, k, k);
    ApplyKeepsTracked(CheckPanel, s, k);
    var w0 := ApplyUpTo(CheckPanel, s, k).world;
    ApplyAtPanel(CheckPanel, s, k);
    CheckDeadStarts(w0, s.panels[k]);
  }

  /** `check` on an enabled panel whose process is dead is `_start`, and yields a new pid or none. */
  lemma CheckDeadStarts(w: World, p: PanelState)
    requires Sane(w)
    requires Cmd(w.settings, p.role).Some?
    requires Dead(w, p.proc)
    ensures CheckPanel(w, p) == StartStep(w, p.role)
    ensures CheckPanel(w, p).0.None? || w.nextPid <= CheckPanel(w, p).0.value.pid
  {
    var cmd := Cmd(w.settings, p.role).value;
    SpawnOutcome(w, Argv.Split(cmd), Cwd(w.settings, p.role));
  }

  /**
   * In a sweep, panel `k` ends as `step` left it, from the world the
   * panels before it produced; the panels after it do not touch it.
   */
  lemma ApplyAtPanel(step: PanelStep, s: Sup, k: nat)
    requires k < |s.panels|
    ensures ApplyUpTo(step, s, k).panels[k] == s.panels[k]
    ensures var r := step(ApplyUpTo(step, s, k).world, s.panels[k]);
      && ApplyAll(step, s).panels[k].proc == r.0
      && ApplyUpTo(step, s, k + 1).world == r.1
  {
    if k + 1 < |s.panels| {
      SweepKeepsDone(step, s, k, |s.panels|);
    }
  }

  /**
   * A panel whose process exits, or whose command is switched on,
   * between two ticks is restarted by the next sweep: `_start` runs on
   * it, and it then tracks a pid newer than any handed out before, or
   * nothing exactly when that spawn attempt fails.
   */
  lemma RestartAfterExternal(s: Sup, w': World, k: nat)
    requires Tracked(s)
    requires External(s.world, w')
    requires k < |s.panels|
    requires Cmd(w'.settings, s.panels[k].role).Some?
    requires Dead(w', s.panels[k].proc)
    ensures var w0 := ApplyUpTo(CheckPanel, Sup(w', s.panels), k).world;
      var h := Sweep(Sup(w', s.panels)).panels[k].proc;
      && h == StartStep(w0, s.panels[k].role).0
      && |StartStep(w0, s.panels[k].role).1.launches| == |w0.launches| + 1
      && (h.None? <==> |w0.launches| in w'.spawnFaults)
      && (h.None? || s.world.nextPid <= h.value.pid)
  {
    ExternalKeepsTracked(s, w');
    SweepRestartsDead(Sup(w', s.panels), k);
    var w0 := ApplyUpTo(CheckPanel, Sup(w', s.panels), k).world;
    StartEnabled(w0, s.panels[k].role, Cmd(w'.settings, s.panels[k].role).value);
  }

  /** A fresh supervisor satisfies the invariant in any sane environment. */
  lemma InitialTracked(w: World)
    requires Sane(w)
    ensures Tracked(Sup(w, InitialPanels()))
    ensures |InitialPanels()| == |AllPanels|
    ensures forall i :: 0 <= i < |AllPanels| ==> InitialPanels()[i] == PanelState(AllPanels[i], None)
  {
  }

  /** When tracked pids are distinct, a pid belongs to at most one panel. */
  lemma OwnerUnique(ps: seq<PanelState>, pid: int, i: nat, j: nat)
    requires DistinctPids(ps)
    requires i < |ps| && j < |ps|
    requires ps[i].proc == Some(Proc(pid)) && ps[j].proc == Some(Proc(pid))
    ensures i == j
  {
  }

  /**
   * Stopping the first k panels spawns nothing, fails no differently,
   * forgets no process and brings none back to life.
   */
  lemma {:induction false} StopKeepsWorld(s: Sup, k: nat)
    requires k <= |s.panels|
    ensures var w' := ApplyUpTo(StopPanel, s, k).world;
      && w'.killFaults == s.world.killFaults
      && w'.launches == s.world.launches
      && w'.nextPid == s.world.nextPid
      && w'.alive.Keys == s.world.alive.Keys
      && (forall p :: p in w'.alive && w'.alive[p] ==> s.world.alive[p])
  {
    if k > 0 {
      StopKeepsWorld(s, k - 1);
    }
  }

  /**
   * Stopping the first k panels clears each handle whose kill succeeds
   * and keeps each handle whose kill raises.
   */
  lemma {:induction false} StopClearsHandles(s: Sup, k: nat)
    requires k <= |s.panels|
    ensures forall i :: 0 <= i < k ==>
      ApplyUpTo(StopPanel, s, k).panels[i].proc ==
        if s.panels[i].proc.Some? && s.panels[i].proc.value.pid in s.world.killFaults
        then s.panels[i].proc else None
  {
    if k > 0 {
      StopClearsHandles(s, k - 1);
      StopKeepsWorld(s, k - 1);
      var prev := ApplyUpTo(StopPanel, s, k - 1);
      assert prev.panels[k - 1] == s.panels[k - 1];
      assert ApplyUpTo(StopPanel, s, k).panels == prev.panels[k - 1 := PanelState(s.panels[k - 1].role, StopPanel(prev.world, s.panels[k - 1]).0)];
    }
  }

  /**
   * Stopping the first k panels leaves every process they tracked, and
   * whose kill did not raise, no longer running.
   */
  lemma {:induction false} StopKillsProcesses(s: Sup, k: nat)
    requires k <= |s.panels|
    ensures ApplyUpTo(StopPanel, s, k).world.alive.Keys == s.world.alive.Keys
    ensures forall i :: 0 <= i < k && s.panels[i].proc.Some? && s.panels[i].proc.value.pid in s.world.alive
                        && s.panels[i].proc.value.pid !in s.world.killFaults ==>
      !ApplyUpTo(StopPanel, s, k).world.alive[s.panels[i].proc.value.pid]
  {
    StopKeepsWorld(s, k);
    if k > 0 {
      StopKillsProcesses(s, k - 1);
      StopKeepsWorld(s, k - 1);
      var prev := ApplyUpTo(StopPanel, s, k - 1);
      assert prev.panels[k - 1] == s.panels[k - 1];
      assert ApplyUpTo(StopPanel, s, k).world == StopPanel(prev.world, s.panels[k - 1]).1;
    }
  }

  /**
   * After a supervisor stop, a panel still tracks a process only if
   * killing that process raised; when no kill raises, every handle is
   * cleared. Every tracked process whose kill did not raise has stopped
   * running, processes that were already dead stay dead, and nothing is
   * spawned.
   */
  lemma StopAllOutcome(s: Sup)
    ensures forall i :: 0 <= i < |s.panels| ==>
      StopAll(s).panels[i].proc ==
        if s.panels[i].proc.Some? && s.panels[i].proc.value.pid in s.world.killFaults
        then s.panels[i].proc else None
    ensures (forall i :: 0 <= i < |s.panels| && s.panels[i].proc.Some? ==>
               s.panels[i].proc.value.pid !in s.world.killFaults) ==>
            forall i :: 0 <= i < |s.panels| ==> StopAll(s).panels[i].proc == None
    ensures StopAll(s).world.alive.Keys == s.world.alive.Keys
    ensures forall i :: 0 <= i < |s.panels| && s.panels[i].proc.Some? && s.panels[i].proc.value.pid in s.world.alive
                        && s.panels[i].proc.value.pid !in s.world.killFaults ==>
      !StopAll(s).world.alive[s.panels[i].proc.value.pid]
    ensures forall p :: p in s.world.alive && !s.world.alive[p] ==>
      p in StopAll(s).world.alive && !StopAll(s).world.alive[p]
    ensures StopAll(s).world.launches == s.world.launches
  {
    StopKeepsWorld(s, |s.panels|);
    StopClearsHandles(s, |s.panels|);
    StopKillsProcesses(s, |s.panels|);
  }

  /** `PanelsLauncher`: the running flag and the panels, one per role. */
  class PanelsLauncher {
    var running: bool
    /** The loop counter of `run`. */
    var tick: nat
    const panels: seq<PanelLauncher>

    /** One distinct panel object per role, in the order of AllPanels. */
    ghost predicate Valid()
    {
      && |panels| == |AllPanels|
      && (forall i :: 0 <= i < |panels| ==> panels[i].panel == AllPanels[i])
      && (forall i, j :: 0 <= i < j < |panels| ==> panels[i] != panels[j])
    }

    /** The panels' roles and handles. */
    function Panels(): seq<PanelState>
      reads panels
    {
      seq(|panels|, i requires 0 <= i < |panels| reads panels => PanelState(panels[i].panel, panels[i].proc))
    }

    function State(host: Host): Sup
      reads host, panels
    {
      Sup(host.world, Panels())
    }

    /** `__init__`: one idle panel per role, in order, and the flag set. */
    constructor ()
      ensures Valid() && running
      ensures Panels() == InitialPanels()
      ensures forall i :: 0 <= i < |panels| ==> fresh(panels[i])
      ensures tick == 0
      ensures forall host: Host :: Sane(host.world) ==> Tracked(State(host))
    {
      var ps: seq<PanelLauncher> := [];
      for k := 0 to |AllPanels|
        invariant |ps| == k
        invariant forall i :: 0 <= i < k ==> fresh(ps[i]) && ps[i].panel == AllPanels[i] && ps[i].proc == None
        invariant forall i, j :: 0 <= i < j < k ==> ps[i] != ps[j]
      {
        var p := new PanelLauncher(AllPanels[k]);
        ps := ps + [p];
      }
      running := true;
      tick := 0;
      panels := ps;
      new;
      forall host: Host | Sane(host.world)
        ensures Tracked(State(host))
      {
        InitialTracked(host.world);
      }
    }

    /** `stop`: clear the flag, then stop every panel in order. */
    method Stop(host: Host)
      requires Valid()
      modifies this`running, host, panels
      ensures !running
      ensures State(host) == StopAll(old(State(host)))
      ensures Tracked(old(State(host))) ==> Tracked(State(host))
    {
      ghost var s0 := State(host);
      running := false;
      for k := 0 to |panels|
        invariant !running
        invariant State(host) == ApplyUpTo(StopPanel, s0, k)
      {
        ghost var before := State(host);
        panels[k].Stop(host);
        ghost var r := StopPanel(before.world, before.panels[k]);
        ghost var after := before.panels[k := PanelState(before.panels[k].role, r.0)];
        forall j | 0 <= j < |panels| ensures Panels()[j] == after[j] {
          if j != k {
            assert panels[j] != panels[k];
          }
        }
        assert Panels() == after;
      }
      if Tracked(s0) {
        StopAllKeepsTracked(s0);
      }
    }

    /**
     * `get_panel_for_pid`: None for no pid; otherwise the role of the
     * first panel, in order, tracking that pid, or None if none does.
     */
    method GetPanelForPid(pid: Option<int>) returns (r: Option<Role>)
      ensures pid.None? ==> r == None
      ensures pid.Some? && r.None? ==>
        forall i :: 0 <= i < |panels| ==> panels[i].proc != Some(Proc(pid.value))
      ensures r.Some? ==>
        exists i :: 0 <= i < |panels| && panels[i].proc == Some(Proc(pid.value)) && r.value == panels[i].panel
          && forall j :: 0 <= j < i ==> panels[j].proc != Some(Proc(pid.value))
      ensures r.Some? && DistinctPids(Panels()) ==>
        forall i :: 0 <= i < |panels| && panels[i].proc == Some(Proc(pid.value)) ==> r.value == panels[i].panel
    {
      if pid.None? {
        return None;
      }
      for k := 0 to |panels|
        invariant forall j :: 0 <= j < k ==> panels[j].proc != Some(Proc(pid.value))
      {
        var q := panels[k].GetPid();
        if pid == q {
          forall i | 0 <= i < |panels| && panels[i].proc == Some(Proc(pid.value)) && DistinctPids(Panels())
            ensures i == k
          {
            assert Panels()[i].proc == panels[i].proc && Panels()[k].proc == panels[k].proc;
            OwnerUnique(Panels(), pid.value, i, k);
          }
          return Some(panels[k].panel);
        }
      }
      return None;
    }

    /** One sweep: `check` on every panel, in order. */
    method CheckAll(host: Host)
      requires Valid()
      modifies host, panels
      ensures State(host) == Sweep(old(State(host)))
      ensures Tracked(old(State(host))) ==> Tracked(State(host))
    {
      ghost var s0 := State(host);
      for k := 0 to |panels|
        invariant State(host) == ApplyUpTo(CheckPanel, s0, k)
      {
        ghost var before := State(host);
        panels[k].Check(host);
        ghost var r := CheckPanel(before.world, before.panels[k]);
        ghost var after := before.panels[k := PanelState(before.panels[k].role, r.0)];
        forall j | 0 <= j < |panels| ensures Panels()[j] == after[j] {
          if j != k {
            assert panels[j] != panels[k];
          }
        }
        assert Panels() == after;
      }
      if Tracked(s0) {
        SweepKeepsTracked(s0);
      }
    }

    /**
     * One pass of the body of `run`'s loop, entered only while the flag
     * is set (the loop guard): sweep when the counter is a multiple of
     * the period, then advance the counter. A `stop` ends the loop, so no
     * pass follows it. The half-second
     * sleep that follows is where the world changes: a caller may update
     * `host.world` between two calls, and `ExternalKeepsTracked` and
     * `RestartAfterExternal` say what the next sweep then does.
     */
    method RunTick(host: Host)
      requires Valid() && running
      modifies this`tick, host, panels
      ensures tick == old(tick) + 1
      ensures State(host) == Tick(Sweep, old(State(host)), old(tick))
      ensures Tracked(old(State(host))) ==> Tracked(State(host))
    {
      if tick % CheckPeriod == 0 {
        CheckAll(host);
      }
      tick := tick + 1;
    }

    /**
     * `run`, for its first `ticks` ticks: while the flag is set, sweep
     * on every tick that is a multiple of the period. The flag does not
     * change inside the loop, so a stopped supervisor does nothing.
     */
    method Run(host: Host, ticks: nat)
      requires Valid()
      modifies this`tick, host, panels
      ensures running ==> tick == ticks
      ensures running ==> State(host) == RunTicks(Sweep, old(State(host)), ticks)
      ensures running ==> State(host) == Sweeps(Sweep, old(State(host)), (ticks + CheckPeriod - 1) / CheckPeriod)
      ensures !running ==> State(host) == old(State(host))
      ensures Tracked(old(State(host))) ==> Tracked(State(host))
    {
      ghost var s0 := State(host);
      tick := 0;
      while running && tick < ticks
        invariant tick <= ticks
        invariant running ==> State(host) == RunTicks(Sweep, s0, tick)
        invariant !running ==> tick == 0 && State(host) == s0
        invariant Tracked(s0) ==> Tracked(State(host))
      {
        RunTick(host);
      }
      RunSweepCount(Sweep, s0, ticks);
    }
  }
}
